=== FILE: README.md ===
# Path_Finder authentication flow, modelled in Dafny

This project models how Path_Finder signs users up, logs them in and shows
their profile. It also proves properties of that model. It covers:

- the three React pages involved:
  - the sign-up page's submit handler (`Signup.tsx`)
  - the login page's submit handler (`Login.tsx`)
  - the profile page's mount effect, card and logout handler (`Profile.tsx`)
- the Django REST framework serializers behind them (`serializers.py`):
  - `RegisterSerializer`: its fields, `validate` and `create`
  - `MyTokenObtainPairSerializer.validate`

The browser's `localStorage` is a `map<string, string>` (module `Storage`).
Each page handler is a pure function of the form state, the storage and the
request's outcome (module `Http`). The outcome is one of three cases:

- a response body
- an error response, possibly carrying data
- no response at all

The session the login page writes is a JSON text. Module `Json` models
`JSON.stringify` and `JSON.parse` on the flat objects of strings used here,
including ECMAScript's string escaping. The central proof is the round trip
`Parse(Stringify(ms)) == Some(Object(ms))`, proved by induction over the
members and over the characters of each string. Module `AuthFlows` ties the
pieces together:

- the profile page reads back exactly what the login page wrote
- the back end's login response carries no `username`
- every validation error `RegisterSerializer` reports for a payload the
  sign-up page sent is shown as a labelled message (the first present
  field's first message), never as the generic one; when several fields
  fail, only the first in the page's order is shown. A failure after
  validation is not covered (see "## Left out")

Behaviour modelled as the code has it:

- **`user` is not guarded when the profile page mounts.** `Profile.tsx:17`
  calls `JSON.parse` without a guard, so a stored text that does not parse
  throws. `Profile.Mount` returns `ParseThrew` in that case.
- **Logout keeps the token.** It removes `user` but leaves `token` in storage
  (`Profile.tsx:22`).
- **Missing login-response fields.** A login response without `access` stores
  the string `"undefined"` under `token`. A missing profile field is left out
  of the stored record, as `JSON.stringify` drops `undefined` members.
- **`detail` must be truthy.** An empty `detail` falls back to the generic
  login message.
- **Empty message lists.** The sign-up page tests a field's message list for
  truthiness. An empty list is truthy, so the page shows `"Email: undefined"`.
- **The profile never shows a username after a back-end login.** The back
  end's login response adds `email`, `role`, `first_name` and `last_name` but
  no `username` (`serializers.py:59-62`), and the parent serializer's token
  data carries none either (see "## Left out").

## Model

| member | source | states |
|---|---|---|
| Storage.SetItem | front_end/src/pages/Login.tsx:30-31 | `setItem` makes the key read back the new value, adds only that key, and leaves every other key's value alone |
| Storage.RemoveItem | front_end/src/pages/Profile.tsx:22 | `removeItem` makes the key read back as absent, and every key that remains keeps its value |
| Storage.RemoveItemIdempotent | front_end/src/pages/Profile.tsx:22 | removing the same key a second time changes nothing |
| Json.Parse | front_end/src/pages/Profile.tsx:17 | `JSON.parse` gives `null` exactly for the text `null`; any object it returns came from a text framed by `{` and `}` |
| Json.ObjectOf | front_end/src/pages/Profile.tsx:17 | the parsed object has exactly the members' keys, and each key holds the value of its last occurrence, as in `JSON.parse` |
| Json.ObjectOfDistinct | front_end/src/pages/Profile.tsx:17 | when no key repeats, every member's value is what the object holds under that key |
| Json.ObjectLookup | front_end/src/pages/Profile.tsx:17 | when no key repeats, looking up a key in the parsed object yields that member's value, or absent when no member has that key |
| Json.ParseEscapedChar | front_end/src/pages/Login.tsx:31-37 | the reader decodes each character's `JSON.stringify` escape back to that character, control characters included |
| Json.ParseEscapedString | front_end/src/pages/Login.tsx:31-37 | an escaped string and its closing quote read back as the original string, leaving the text after the quote |
| Json.ParseWrittenMember | front_end/src/pages/Login.tsx:31-37 | a written `"key":"value"` member reads back as that member, leaving the text after it |
| Json.ParseWrittenMembers | front_end/src/pages/Login.tsx:31-37 | a written member list and its closing brace read back as the same members, in order |
| Json.ParseStringify | front_end/src/pages/Login.tsx:31-37 | `JSON.parse(JSON.stringify(o))` gives back every member of `o`, in order |
| Login.Begin | front_end/src/pages/Login.tsx:21-27 | before the request the form is busy and its error is cleared; the request carries the typed e-mail and password and nothing else |
| Login.Member | front_end/src/pages/Login.tsx:31-37 | an undefined field writes no member, and a defined one writes exactly its key and value |
| Login.UserMembers | front_end/src/pages/Login.tsx:31-37 | the stored record has no repeated key, always carries the typed e-mail, and uses only the five record keys |
| Login.UserFromResponse | front_end/src/pages/Login.tsx:31-37 | the record takes username, role and both names from the response, and the e-mail from the form, not from the response |
| Login.UserObjectFields | front_end/src/pages/Login.tsx:31-37 | reading the record back gives the typed e-mail, and each profile field exactly when the response had it |
| Login.SessionToken | front_end/src/pages/Login.tsx:30 | the stored token is the response's `access`, or the text `undefined` when the response has none |
| Login.WriteSession | front_end/src/pages/Login.tsx:30-37 | a successful login stores the token and the user record, adds only those two keys, and leaves every other key alone |
| Login.FailureMessage | front_end/src/pages/Login.tsx:39-44 | the error is the response's `detail` when that is non-empty, and the generic login message otherwise, also when there is no response |
| Login.Finish | front_end/src/pages/Login.tsx:28-48 | success writes the session and goes to `/dashboard`; failure writes nothing, stays put and shows the failure message; either way the form is usable again |
| Login.Submit | front_end/src/pages/Login.tsx:19-49 | one submission sends the two credentials and ends not busy; it navigates exactly when the request succeeded, and leaves storage untouched when it failed |
| Login.RememberMeIgnored | front_end/src/pages/Login.tsx:14 | the "remember me" box changes neither the request, the storage, the navigation nor the error |
| Profile.Mount | front_end/src/pages/Profile.tsx:14-19 | the page has a user exactly when `user` holds a non-empty text that parses to an object; absent or empty leaves it null; a text that does not parse throws |
| Profile.MalformedUserThrows | front_end/src/pages/Profile.tsx:17 | a stored `user` whose first character cannot begin a JSON text makes the mount throw, because nothing guards the parse |
| Profile.Logout | front_end/src/pages/Profile.tsx:21-26 | logout removes `user` and nothing else, keeps `token`, clears the user state and redirects to `/login` |
| Profile.LogoutIdempotent | front_end/src/pages/Profile.tsx:22 | logging out twice leaves storage as logging out once |
| Profile.MountAfterLogout | front_end/src/pages/Profile.tsx:21-26 | after one or two logouts the page mounts with no user |
| Profile.Card | front_end/src/pages/Profile.tsx:63-75 | without a user the page shows "No user data found."; the logout button is offered exactly when there is a user; the card shows the names, the e-mail, and a username line only for a non-empty username |
| Signup.Payload | front_end/src/pages/Signup.tsx:35-42 | the payload always has role `student` and `password2` set to the confirmation; the other fields are copied unchanged from the form |
| Signup.RequestBody | front_end/src/pages/Signup.tsx:35-42 | the posted object holds the six payload fields under the back end's field names |
| Signup.Begin | front_end/src/pages/Signup.tsx:22-33 | a request goes out exactly when the terms are agreed and the passwords match; otherwise the error is the terms message or the mismatch message, in that order; sending makes the form busy and clears the error |
| Signup.ErrorMessage | front_end/src/pages/Signup.tsx:44-60 | the generic sign-up message appears exactly when there is no response data or it names none of the four labelled fields |
| Signup.Labelled | front_end/src/pages/Signup.tsx:47-54 | a labelled field message can never be mistaken for the generic message |
| Signup.FirstReported | front_end/src/pages/Signup.tsx:47-57 | reading the table in order, the first listed field present in the body decides the message, `"<Label>: <first message>"`, and every field before it is absent |
| Signup.ErrorMessageIsPriorityTable | front_end/src/pages/Signup.tsx:45-60 | the page's chain of branches agrees with the priority table (email, password, first_name, last_name) on every body |
| Signup.EmailErrorWins | front_end/src/pages/Signup.tsx:47-48 | once `email` is present, the other fields of the body do not change the message |
| Signup.Finish | front_end/src/pages/Signup.tsx:43-64 | success goes to `/login`; failure shows the mapped error without navigating; the form ends not busy and is otherwise unchanged |
| Signup.Submit | front_end/src/pages/Signup.tsx:22-65 | storage is never written; a request is sent exactly when both checks pass; a blocked submission leaves the busy flag alone and navigates nowhere; navigation to `/login` happens exactly when a sent request succeeded |
| Signup.TermsCheckedFirst | front_end/src/pages/Signup.tsx:24-31 | without agreement the confirmation is never looked at: any confirmation gives the same result and the terms message |
| Signup.EnabledAfterSubmit | front_end/src/pages/Signup.tsx:196 | once a submission from an idle form settles, the button is enabled exactly when the terms box is ticked |
| Serializers.Strip | SPA_Backend/apps/accounts/serializers.py:8-16 | the stripped value is a slice of the input with only whitespace before and after it; it is empty exactly when the input is all whitespace, and otherwise neither starts nor ends with whitespace |
| Serializers.CharField | SPA_Backend/apps/accounts/serializers.py:8-16 | a missing value is `Required` and a blank one `Blank`; a value is accepted exactly when its stripped text passes the validators and the length bounds; a refused non-blank value reports the declared validators' errors first and in order, followed only by the violated bounds, and every violated bound is reported |
| Serializers.PolicyErrors | SPA_Backend/apps/accounts/serializers.py:11 | each message from the password policy becomes one field error, in order |
| Serializers.RoleField | SPA_Backend/apps/accounts/serializers.py:17-21 | an omitted role becomes `student`; a given role is accepted exactly when it is `student` or `admin`, and is refused as an invalid choice otherwise |
| Serializers.FieldResult | SPA_Backend/apps/accounts/serializers.py:8-21 | each field passes exactly when its declaration allows it, and a refused field carries at least one error; a non-blank e-mail in the wrong format is refused with `InvalidEmail` alone; a refused non-blank password starts with the password policy's messages, in order; a short password is `TooShort(8)`, an overlong name is `TooLong(30)`, and a missing required field is `Required` |
| Serializers.EmailField | SPA_Backend/apps/accounts/serializers.py:14 | the e-mail is accepted exactly when it is present, not blank after stripping, and in e-mail format; a non-blank value in the wrong format is refused with `InvalidEmail` alone |
| Serializers.PasswordField | SPA_Backend/apps/accounts/serializers.py:8-12 | the password is accepted exactly when its stripped text has at least eight characters and the password policy has no message for it; a refused non-blank password reports the policy's messages first, in order |
| Serializers.FieldErrors | SPA_Backend/apps/accounts/serializers.py:7-30 | the error body names exactly the failing fields, each with its own errors |
| Serializers.ToInternalValue | SPA_Backend/apps/accounts/serializers.py:7-30 | the field stage succeeds exactly when every field passes, and its data are the stripped inputs; otherwise it reports a non-empty error body |
| Serializers.Validate | SPA_Backend/apps/accounts/serializers.py:32-35 | `validate` refuses with a `password` error exactly when the passwords differ, and otherwise returns its input unchanged |
| Serializers.RunValidation | SPA_Backend/apps/accounts/serializers.py:32-35 | registration is accepted exactly when every field passes and the passwords agree; accepted data meet every field constraint; field errors take precedence over the mismatch |
| Serializers.ShortPasswordRejected | SPA_Backend/apps/accounts/serializers.py:8-12 | a non-blank password shorter than 8 characters is refused on `password` as too short |
| Serializers.MissingFieldRequired | SPA_Backend/apps/accounts/serializers.py:13-30 | a missing e-mail, password, confirmation or name is reported as required, while a missing role is no error |
| Serializers.Create | SPA_Backend/apps/accounts/serializers.py:37-45 | `create` passes on e-mail, password, both names and role unchanged |
| Serializers.CreateIgnoresPassword2 | SPA_Backend/apps/accounts/serializers.py:37-45 | the created user does not depend on `password2` |
| Serializers.CreatedUserWellFormed | SPA_Backend/apps/accounts/serializers.py:37-45 | a user created from accepted input has an allowed role, `student` when none was sent, and a password of at least 8 characters |
| Serializers.TokenResponse | SPA_Backend/apps/accounts/serializers.py:56-64 | the login response keeps the parent's token data and adds exactly the user's e-mail, role and names; an authentication failure passes through unchanged |
| Serializers.NoUsernameAdded | SPA_Backend/apps/accounts/serializers.py:59-62 | the response has a `username` only if the parent's token data already had one |
| AuthFlows.LoginThenProfile | front_end/src/pages/Profile.tsx:14-19 | after a successful login the profile page mounts with the typed e-mail, and with each profile field exactly when the login response had it |
| AuthFlows.BackendLoginHasNoUsername | SPA_Backend/apps/accounts/serializers.py:56-64 | when the parent's token data has no username, logging in against the back end stores none, so the card shows no username line; the role and names shown are the account's |
| AuthFlows.LoginRecordCard | front_end/src/pages/Profile.tsx:63-67 | a response without a username but with role and names produces a card with those names, the typed e-mail and no username line |
| AuthFlows.RecordCard | front_end/src/pages/Profile.tsx:65-67 | a record with both names and an e-mail but no username renders as those names and that e-mail, with no username line |
| AuthFlows.BackendLoginRefused | front_end/src/pages/Login.tsx:40-41 | the login serializer passes an authentication failure through, and its text, arriving as `detail`, is shown unless it is empty; no session is written and the page stays put |
| AuthFlows.RenderErrors | SPA_Backend/apps/accounts/serializers.py:7-35 | the error body the page receives names exactly the fields the serializer refused, each with one rendered message per error, in order |
| AuthFlows.SignupPayloadPassesCrossChecks | SPA_Backend/apps/accounts/serializers.py:32-35 | the back end's password comparison never refuses a payload the page sent, and neither does its role check |
| AuthFlows.SignupRefusalIsLabelled | front_end/src/pages/Signup.tsx:45-57 | every refusal of a payload the page sent names a field the page labels, so the user never sees the generic message, whatever the error texts say |
| AuthFlows.BadEmailShown | front_end/src/pages/Signup.tsx:45-48 | a non-blank e-mail in the wrong format is refused with the format error alone, and the page shows `"Email: "` followed by that error's text |
| AuthFlows.PolicyRefusalShown | front_end/src/pages/Signup.tsx:45-50 | with an acceptable e-mail, a non-blank password the password policy refuses makes the page show `"Password: "` followed by the policy's first message, whatever the password's length |

## Left out

- Rendering, styling, the navigation bar and the console output (`console.log`, `console.error`) are not modelled. Only the page state that decides what is shown is modelled, such as `Profile.Card`.
- Asynchrony and the HTTP transport (axios, `api.post`, the JWT views) are left out. A request is replaced by its settled outcome, given as a parameter. The access and refresh tokens are opaque strings.
- The dashboard page reads the same `user` key. It is not part of this model.
- The e-mail format check of `EmailField` and Django's `validate_password` are library code. They enter as the functions of `Serializers.LibraryChecks`, so the model says nothing about which e-mails or passwords they accept.
- `Serializers.CharField` does not model the REST framework's check that refuses null characters, nor `null` values in the request. Request values are strings.
- Email uniqueness and everything else in the `User` model are left out, because the `User` model is not part of this model. `Serializers.Create` only describes the arguments passed to `create_user`.
- AuthFlows.SignupRefusalIsLabelled: covers only refusals by validation (`is_valid()`). A failure after validation is not covered and may show the generic sign-up message. An example is `create_user` refusing an e-mail that is already registered: the e-mail field is declared explicitly, so no uniqueness check runs during validation.
- AuthFlows.BackendLoginHasNoUsername: assumes the token data returned by the library's `TokenObtainPairSerializer.validate` has no `username`. That data is taken to carry only `refresh` and `access`; the library is not part of this model.
- `Serializers.IsSpace` lists the characters Python's `str.isspace` accepts. Stripping uses exactly that set.
- `Json.Parse` covers only `null` and flat objects whose values are strings, written without insignificant whitespace. Numbers, booleans, arrays, nested objects and whitespace between tokens are refused, which is the parse-throws case. A `\u` escape naming a surrogate code unit is refused too, because Dafny characters are Unicode scalar values. The stored record only ever holds string fields written without whitespace, so the round trip is unaffected.
- `Json.Parse` states only its framing facts as a contract. What it reads back is stated by `Json.ParseStringify` and the lemmas beneath it.
- Profile.Mount: a stored text that is valid JSON but neither `null` nor a flat object of strings (such as `42`, `[]` or ` {}`) is treated as a throw. `JSON.parse` would return a value there and the page would keep it. Such texts are outside what `Json.Parse` covers, and the login page never writes them.
- Login.Finish: the success branch always completes. Two ways the `try` block at `Login.tsx:29-38` can throw after the request resolves are not modelled. First, `localStorage.setItem` can throw (quota exceeded, or storage disabled); `token` may then already be written when the generic message is shown and the page stays put. Second, a resolved response whose `data` is null throws at `Login.tsx:30`, which also gives the generic message. Storage writes are modelled as total, and a response body is always an object.
- A thrown `JSON.parse` on the profile page is represented by `ParseThrew`. What React does with an exception thrown in an effect is not modelled.
- The response's `role`, `first_name` and `last_name` are modelled as strings or missing. Other JSON types in the response are not modelled.

=== FILE: flows.dfy ===
/**
 * Properties that span the pages and the back end: the session the login
 * page writes is the one the profile page reads back, and what the back
 * end's serializers produce is what the pages consume.
 */
module AuthFlows {
  import opened Wrappers
  import opened Storage
  import opened Http
  import Json
  import Login
  import Profile
  import Signup
  import Serializers

  /**
   * Write-then-read: after a successful login the profile page mounts with
   * exactly the fields the login wrote: the typed e-mail, and each profile
   * field of the response when the response had it.
   */
  lemma LoginThenProfile(f: Login.LoginForm, store: Store, body: Login.ResponseBody)
    ensures var step := Login.Submit(f, store, Ok(body)).step;
      && GetItem(step.store, TokenKey) == Some(Login.SessionToken(body))
      && Profile.Mount(step.store).Mounted?
      && Profile.Mount(step.store).user.Some?
      && var o := Profile.Mount(step.store).user.value;
         && o.Keys <= Login.UserRecordKeys
         && Get(o, "email") == Some(f.email)
         && Get(o, "username") == Get(body, "username")
         && Get(o, "role") == Get(body, "role")
         && Get(o, "first_name") == Get(body, "first_name")
         && Get(o, "last_name") == Get(body, "last_name")
  {
    var u := Login.UserFromResponse(body, f.email);
    var ms := Login.UserMembers(u);
    Json.ParseStringify(ms);
    Login.UserObjectFields(u);
    var step := Login.Submit(f, store, Ok(body)).step;
    assert step.store[UserKey] == Json.Stringify(ms);
  }

  /**
   * The back end's login response has no `username`, so the stored record
   * has none and the profile card shows no username line, while the name
   * and role are the authenticated user's.
   */
  lemma BackendLoginHasNoUsername(f: Login.LoginForm, store: Store, parent: map<string, string>,
                                  user: Serializers.AccountUser)
    requires "username" !in parent
    ensures var response := Serializers.TokenResponse(Success(parent), user).value;
      var mounted := Profile.Mount(Login.Submit(f, store, Ok(response)).step.store);
      && mounted.Mounted? && mounted.user.Some?
      && "username" !in mounted.user.value
      && Get(mounted.user.value, "role") == Some(user.role)
      && Profile.Card(mounted.user) == Profile.UserCard(user.firstName + " " + user.lastName, None, f.email)
  {
    var response := Serializers.TokenResponse(Success(parent), user).value;
    Serializers.NoUsernameAdded(parent, user);
    assert response["role"] == user.role;
    assert response["first_name"] == user.firstName && response["last_name"] == user.lastName;
    LoginRecordCard(f, store, response);
  }

  /** The card after a login whose response names the role and both names but no username. */
  lemma LoginRecordCard(f: Login.LoginForm, store: Store, response: Login.ResponseBody)
    requires "username" !in response
    requires "role" in response && "first_name" in response && "last_name" in response
    ensures var mounted := Profile.Mount(Login.Submit(f, store, Ok(response)).step.store);
      && mounted.Mounted? && mounted.user.Some?
      && "username" !in mounted.user.value
      && Get(mounted.user.value, "role") == Some(response["role"])
      && Profile.Card(mounted.user)
         == Profile.UserCard(response["first_name"] + " " + response["last_name"], None, f.email)
  {
    LoginThenProfile(f, store, response);
    var mounted := Profile.Mount(Login.Submit(f, store, Ok(response)).step.store);
    var o := mounted.user.value;
    assert Get(o, "username") == None;
    RecordCard(o, response["first_name"], response["last_name"], f.email);
  }

  /** The card for a stored record with both names and the e-mail but no username. */
  lemma RecordCard(o: map<string, string>, first: string, last: string, email: string)
    requires Get(o, "username") == None
    requires Get(o, "first_name") == Some(first) && Get(o, "last_name") == Some(last)
    requires Get(o, "email") == Some(email)
    ensures Profile.Card(Some(o)) == Profile.UserCard(first + " " + last, None, email)
  {
    assert Profile.Shown(o, "first_name") == first;
    assert Profile.Shown(o, "last_name") == last;
    assert Profile.Shown(o, "email") == email;
  }

  /**
   * A refused login: the login serializer passes the authentication
   * failure through, the framework sends its text as the response data's
   * `detail`, and the page shows it unless it is empty; no session is
   * written.
   */
  lemma BackendLoginRefused(f: Login.LoginForm, store: Store, detail: string, user: Serializers.AccountUser)
    ensures var refusal := Serializers.TokenResponse(Failure(detail), user);
      var step := Login.Submit(f, store, ErrResp(Some(map["detail" := refusal.error]))).step;
      && refusal.Failure?
      && step.store == store && step.nav == None
      && step.form.error == (if detail != "" then detail else Login.LoginFailedMessage)
  {
    var refusal := Serializers.TokenResponse(Failure(detail), user);
    assert refusal.error == detail;
  }

  /** The error body the back end sends: each failing field's name with its rendered messages. */
  function RenderErrors(e: Serializers.ErrorDict, text: Serializers.FieldError -> string): (body: Signup.ErrorBody)
    ensures forall f :: f in e <==> f.Key() in body
    ensures forall k :: k in body ==> exists f :: f in e && f.Key() == k
    ensures forall f :: f in e ==>
      (|body[f.Key()]| == |e[f]| && forall i :: 0 <= i < |e[f]| ==> body[f.Key()][i] == text(e[f][i]))
  {
    forall f: Serializers.Field, g: Serializers.Field ensures f.Key() == g.Key() ==> f == g {
      Serializers.KeyInjective(f, g);
    }
    map f | f in e :: f.Key() := seq(|e[f]|, i requires 0 <= i < |e[f]| => text(e[f][i]))
  }

  /**
   * The back end's cross-field check never refuses what the sign-up page
   * sends: the page compared the passwords before sending, and it always
   * sends `student`. Such a payload is accepted exactly when its fields are.
   */
  lemma SignupPayloadPassesCrossChecks(f: Signup.SignupForm, checks: Serializers.LibraryChecks)
    requires Signup.Begin(f).Sending?
    ensures var body := Signup.RequestBody(Signup.Begin(f).payload);
      && Serializers.RunValidation(body, checks).Success? == Serializers.FieldsAcceptable(body, checks)
      && (Serializers.RunValidation(body, checks).Failure? ==>
            Serializers.Role !in Serializers.RunValidation(body, checks).error)
  {
    var p := Signup.Begin(f).payload;
    assert p.password == p.password2 && p.role == Signup.StudentRole;
    PayloadCrossFields(p, checks);
  }

  /** The two cross-field facts about a body built from a matching, `student` payload. */
  lemma PayloadCrossFields(p: Signup.RegisterPayload, checks: Serializers.LibraryChecks)
    requires p.password == p.password2 && p.role == Signup.StudentRole
    ensures var body := Signup.RequestBody(p);
      && Serializers.Acceptable(body, checks, Serializers.Role)
      && Serializers.Submitted(body, Serializers.Password) == Serializers.Submitted(body, Serializers.Password2)
  {
    var body := Signup.RequestBody(p);
    assert Serializers.Field.Password.Key() == "password";
    assert Serializers.Field.Password2.Key() == "password2";
    assert Serializers.Field.Role.Key() == "role";
    assert body["password"] == body["password2"];
    assert body["role"] in Serializers.RoleChoices;
  }

  /**
   * Every refusal of a payload the sign-up page sent names a field the page
   * knows a label for, so the page shows a labelled message and never the
   * generic one, however the back end words its messages.
   */
  lemma SignupRefusalIsLabelled(f: Signup.SignupForm, checks: Serializers.LibraryChecks,
                                text: Serializers.FieldError -> string)
    requires Signup.Begin(f).Sending?
    ensures var r := Serializers.RunValidation(Signup.RequestBody(Signup.Begin(f).payload), checks);
      r.Failure? ==> Signup.ErrorMessage(Some(RenderErrors(r.error, text))) != Signup.SignupFailedMessage
  {
    var body := Signup.RequestBody(Signup.Begin(f).payload);
    if Serializers.RunValidation(body, checks).Success? {
      return;
    }
    var e := Serializers.RunValidation(body, checks).error;
    var p := Signup.Begin(f).payload;
    assert p.password == p.password2 && p.role == Signup.StudentRole;
    PayloadCrossFields(p, checks);
    SignupPayloadPassesCrossChecks(f, checks);
    var rendered := RenderErrors(e, text);
    // `password2` fails only when `password`, which has the same text, fails too.
    assert Serializers.Password2 in e ==> Serializers.Password in e;
    var fe :| fe in e;
    assert fe in {Serializers.Email, Serializers.Password, Serializers.FirstName, Serializers.LastName}
      || (fe == Serializers.Password2 && Serializers.Password in e);
    assert Serializers.Email in e || Serializers.Password in e || Serializers.FirstName in e || Serializers.LastName in e;
    assert "email" in rendered || "password" in rendered || "first_name" in rendered || "last_name" in rendered;
    Signup.LabelledWhenFieldPresent(rendered);
  }

  /**
   * A badly formed e-mail is refused with the e-mail format error alone,
   * and since `email` comes first the page shows that error's text.
   */
  lemma BadEmailShown(input: Serializers.RequestData, checks: Serializers.LibraryChecks,
                      text: Serializers.FieldError -> string)
    requires Serializers.Submitted(input, Serializers.Email).Some?
    requires var v := Serializers.Submitted(input, Serializers.Email).value; v != "" && !checks.isEmail(v)
    ensures var r := Serializers.RunValidation(input, checks);
      && r.Failure? && r.error[Serializers.Email] == [Serializers.InvalidEmail]
      && Signup.ErrorMessage(Some(RenderErrors(r.error, text))) == "Email: " + text(Serializers.InvalidEmail)
  {
    assert Serializers.FieldResult(input, checks, Serializers.Email) == Failure([Serializers.InvalidEmail]);
    assert !Serializers.FieldsAcceptable(input, checks);
    ShownForEmail(Serializers.RunValidation(input, checks).error, text);
  }

  /** The message for an error body that refuses `email`. */
  lemma ShownForEmail(e: Serializers.ErrorDict, text: Serializers.FieldError -> string)
    requires Serializers.Email in e && e[Serializers.Email] != []
    ensures Signup.ErrorMessage(Some(RenderErrors(e, text))) == "Email: " + text(e[Serializers.Email][0])
  {
    var rendered := RenderErrors(e, text);
    assert "email" in rendered && rendered["email"][0] == text(e[Serializers.Email][0]);
  }

  /**
   * A well-formed e-mail and a non-blank password the password policy
   * refuses: the page shows "Password: " and the policy's first message,
   * whatever the password's length, because the policy's errors come first.
   */
  lemma PolicyRefusalShown(input: Serializers.RequestData, checks: Serializers.LibraryChecks,
                           text: Serializers.FieldError -> string)
    requires Serializers.Acceptable(input, checks, Serializers.Email)
    requires Serializers.Submitted(input, Serializers.Password).Some?
    requires var v := Serializers.Submitted(input, Serializers.Password).value;
      v != "" && checks.passwordProblems(v) != []
    ensures var v := Serializers.Submitted(input, Serializers.Password).value;
      var r := Serializers.RunValidation(input, checks);
      && r.Failure? && Serializers.Email !in r.error
      && r.error[Serializers.Password][0] == Serializers.Rejected(checks.passwordProblems(v)[0])
      && Signup.ErrorMessage(Some(RenderErrors(r.error, text)))
         == "Password: " + text(Serializers.Rejected(checks.passwordProblems(v)[0]))
  {
    var v := Serializers.Submitted(input, Serializers.Password).value;
    var fr := Serializers.FieldResult(input, checks, Serializers.Password);
    var policy := Serializers.PolicyErrors(checks.passwordProblems(v));
    assert fr.Failure? && fr.error[..|policy|] == policy;
    assert fr.error[0] == policy[0];
    assert !Serializers.FieldsAcceptable(input, checks);
    var e := Serializers.RunValidation(input, checks).error;
    assert Serializers.Email !in e && e[Serializers.Password] == fr.error;
    ShownForPassword(e, text);
  }

  /** The message for an error body that accepts `email` and refuses `password`. */
  lemma ShownForPassword(e: Serializers.ErrorDict, text: Serializers.FieldError -> string)
    requires Serializers.Email !in e && Serializers.Password in e && e[Serializers.Password] != []
    ensures Signup.ErrorMessage(Some(RenderErrors(e, text))) == "Password: " + text(e[Serializers.Password][0])
  {
    var rendered := RenderErrors(e, text);
    assert "email" !in rendered;
    assert "password" in rendered && rendered["password"][0] == text(e[Serializers.Password][0]);
  }
}

=== FILE: http.dfy ===
/**
 * What a form handler sees of one `api.post` call. The transport itself is
 * not modelled: each submission is given its outcome as a parameter.
 */
module Http {
  import opened Wrappers

  /**
   * `Ok` is a resolved request with its response body. `ErrResp` is a
   * rejected request that carried a response; its `data` is `None` when that
   * response had no (truthy) body. `NoResponse` is a rejection without any
   * response at all (network failure).
   */
  datatype Outcome<S, E> = Ok(body: S) | ErrResp(data: Option<E>) | NoResponse

  /** The body of the error response, when there is one. */
  function ErrorData<S, E>(o: Outcome<S, E>): (r: Option<E>)
    ensures o.ErrResp? ==> r == o.data
    ensures !o.ErrResp? ==> r == None
  {
    match o
    case ErrResp(d) => d
    case _ => None
  }

  /** Client-side routes the auth pages navigate to. */
  const LoginRoute := "/login"
  const DashboardRoute := "/dashboard"
}

=== FILE: json.dfy ===
/**
 * The slice of JSON the session store relies on: `JSON.stringify` of a flat
 * object whose members are all strings, and `JSON.parse` of what may be in
 * storage. String escaping follows the ECMAScript `JSON.stringify` rules
 * (`\"`, `\\`, `\b`, `\f`, `\n`, `\r`, `\t`, and `\u00xx` in lower-case hex
 * for the other control characters); the parser accepts every escape JSON
 * defines.
 */
module Json {
  import opened Wrappers

  /** The members of a flat object, in document order. */
  type Members = seq<(string, string)>

  /** A parsed document: `null` or a flat object of strings. */
  datatype Document = Null | Object(members: Members)

  const Backspace: char := '\U{8}'
  const FormFeed: char := '\U{C}'

  // ---------------------------------------------------------------- hex digits

  function HexDigit(n: nat): (c: char)
    requires n < 16
  {
    if n < 10 then ('0' as int + n) as char else ('a' as int + n - 10) as char
  }

  predicate IsHexDigit(c: char) {
    '0' <= c <= '9' || 'a' <= c <= 'f' || 'A' <= c <= 'F'
  }

  function HexValue(c: char): (n: nat)
    requires IsHexDigit(c)
    ensures n < 16
  {
    if '0' <= c <= '9' then c as int - '0' as int
    else if 'a' <= c <= 'f' then c as int - 'a' as int + 10
    else c as int - 'A' as int + 10
  }

  /** Reading back the digit written for `n` gives `n`. */
  lemma HexDigitInverse(n: nat)
    requires n < 16
    ensures IsHexDigit(HexDigit(n)) && HexValue(HexDigit(n)) == n
  {
  }

  // ---------------------------------------------------------------- writing

  /** How `JSON.stringify` writes one character inside a string literal. */
  function EscapeChar(c: char): string {
    if c == '"' then "\\\""
    else if c == '\\' then "\\\\"
    else if c == Backspace then "\\b"
    else if c == FormFeed then "\\f"
    else if c == '\n' then "\\n"
    else if c == '\r' then "\\r"
    else if c == '\t' then "\\t"
    else if c < ' ' then "\\u00" + [HexDigit(c as int / 16), HexDigit(c as int % 16)]
    else [c]
  }

  function EscapeString(s: string): string {
    if s == [] then [] else EscapeChar(s[0]) + EscapeString(s[1..])
  }

  function Quote(s: string): string {
    "\"" + EscapeString(s) + "\""
  }

  function MemberText(m: (string, string)): string {
    Quote(m.0) + ":" + Quote(m.1)
  }

  function MembersText(ms: Members): string {
    if ms == [] then ""
    else if |ms| == 1 then MemberText(ms[0])
    else MemberText(ms[0]) + "," + MembersText(ms[1..])
  }

  /** `JSON.stringify` of a flat object of strings (no indentation). */
  function Stringify(ms: Members): (s: string)
    ensures |s| >= 2 && s[0] == '{' && s[|s| - 1] == '}'
  {
    "{" + MembersText(ms) + "}"
  }

  // ---------------------------------------------------------------- reading

  /** Prefixes `c` to the string part of a parse result. */
  function Cons(c: char, r: Option<(string, string)>): (r': Option<(string, string)>)
    ensures r'.Some? <==> r.Some?
    ensures r'.Some? ==> r'.value == ([c] + r.value.0, r.value.1)
  {
    match r
    case None => None
    case Some((s, rest)) => Some(([c] + s, rest))
  }

  /**
   * Decodes the escape sequence that follows a backslash, returning the
   * character and the text after the sequence. A `\u` escape naming a
   * surrogate code unit is refused (see the README).
   */
  function Unescape(t: string): (r: Option<(char, string)>)
    ensures r.Some? ==> |r.value.1| < |t|
  {
    if |t| == 0 then None
    else if t[0] == '"' then Some(('"', t[1..]))
    else if t[0] == '\\' then Some(('\\', t[1..]))
    else if t[0] == '/' then Some(('/', t[1..]))
    else if t[0] == 'b' then Some((Backspace, t[1..]))
    else if t[0] == 'f' then Some((FormFeed, t[1..]))
    else if t[0] == 'n' then Some(('\n', t[1..]))
    else if t[0] == 'r' then Some(('\r', t[1..]))
    else if t[0] == 't' then Some(('\t', t[1..]))
    else if t[0] == 'u' && |t| >= 5
      && IsHexDigit(t[1]) && IsHexDigit(t[2]) && IsHexDigit(t[3]) && IsHexDigit(t[4]) then
      var n := 4096 * HexValue(t[1]) + 256 * HexValue(t[2]) + 16 * HexValue(t[3]) + HexValue(t[4]);
      if 0xD800 <= n < 0xE000 then None else Some((n as char, t[5..]))
    else None
  }

  /**
   * Reads the body of a string literal up to and including its closing
   * quote; returns the decoded string and the text after the quote.
   * Unescaped control characters are refused, as `JSON.parse` refuses them.
   */
  function ParseStringBody(s: string): (r: Option<(string, string)>)
    ensures r.Some? ==> |r.value.1| < |s|
    decreases |s|
  {
    if |s| == 0 then None
    else if s[0] == '"' then Some(([], s[1..]))
    else if s[0] < ' ' then None
    else if s[0] != '\\' then Cons(s[0], ParseStringBody(s[1..]))
    else
      match Unescape(s[1..])
      case None => None
      case Some((c, rest)) => Cons(c, ParseStringBody(rest))
  }

  /** Reads one `"key":"value"` member; returns it and the text after it. */
  function ParseMember(s: string): (r: Option<((string, string), string)>)
    ensures r.Some? ==> |r.value.1| < |s|
  {
    if |s| == 0 || s[0] != '"' then None
    else
      match ParseStringBody(s[1..])
      case None => None
      case Some((k, t)) =>
        if |t| < 2 || t[0] != ':' || t[1] != '"' then None
        else
          match ParseStringBody(t[2..])
          case None => None
          case Some((v, u)) => Some(((k, v), u))
  }

  /**
   * Reads `member ("," member)* "}"`; returns the members and the text
   * after the closing brace.
   */
  function ParseMembers(s: string): (r: Option<(Members, string)>)
    ensures r.Some? ==> |r.value.0| > 0 && |r.value.1| < |s|
    decreases |s|
  {
    match ParseMember(s)
    case None => None
    case Some((m, t)) =>
      if |t| == 0 then None
      else if t[0] == '}' then Some(([m], t[1..]))
      else if t[0] == ',' then
        match ParseMembers(t[1..])
        case None => None
        case Some((ms, u)) => Some(([m] + ms, u))
      else None
  }

  /**
   * `JSON.parse` restricted to the documents this model knows: `null` and
   * flat objects of strings, written without insignificant whitespace.
   * `None` is a parse that throws.
   */
  function Parse(s: string): (r: Option<Document>)
    ensures r == Some(Null) <==> s == "null"
    ensures r.Some? && r.value.Object? ==> |s| >= 2 && s[0] == '{' && s[|s| - 1] == '}'
  {
    if s == "null" then Some(Null)
    else if s == "{}" then Some(Object([]))
    else if |s| == 0 || s[0] != '{' then None
    else
      match ParseMembers(s[1..])
      case None => None
      case Some((ms, rest)) =>
        if rest == [] then
          assert s[|s| - 1] == '}' by { ParseMembersEndsWithBrace(s[1..]); }
          Some(Object(ms))
        else None
  }

  /** A successful `ParseMembers` consumed a closing brace just before its rest. */
  lemma {:induction false} ParseMembersEndsWithBrace(s: string)
    requires ParseMembers(s).Some?
    ensures var rest := ParseMembers(s).value.1;
      |rest| < |s| && s[|s| - |rest| - 1] == '}'
    decreases |s|
  {
    var (m, t) := ParseMember(s).value;
    assert s[|s| - |t|..] == t by { ParseMemberSuffix(s); }
    if t[0] == '}' {
    } else {
      ParseMembersEndsWithBrace(t[1..]);
    }
  }

  /** What `ParseMember` leaves unread is a suffix of its input. */
  lemma ParseMemberSuffix(s: string)
    requires ParseMember(s).Some?
    ensures var t := ParseMember(s).value.1; |t| < |s| && s[|s| - |t|..] == t
  {
    var (k, t) := ParseStringBody(s[1..]).value;
    ParseStringBodySuffix(s[1..]);
    ParseStringBodySuffix(t[2..]);
  }

  /** What `ParseStringBody` leaves unread is a suffix of its input. */
  lemma {:induction false} ParseStringBodySuffix(s: string)
    requires ParseStringBody(s).Some?
    ensures var t := ParseStringBody(s).value.1; |t| < |s| && s[|s| - |t|..] == t
    decreases |s|
  {
    if s[0] == '"' {
    } else if s[0] != '\\' {
      ParseStringBodySuffix(s[1..]);
    } else {
      var (c, rest) := Unescape(s[1..]).value;
      assert s[|s| - |rest|..] == rest;
      ParseStringBodySuffix(rest);
    }
  }

  /**
   * The object a parsed document denotes: a later member with the same key
   * replaces an earlier one, as in `JSON.parse`.
   */
  function ObjectOf(ms: Members): (o: map<string, string>)
    ensures o.Keys == set m | m in ms :: m.0
    ensures |ms| > 0 ==> o[ms[|ms| - 1].0] == ms[|ms| - 1].1
    ensures forall i :: 0 <= i < |ms| && (forall j :: i < j < |ms| ==> ms[j].0 != ms[i].0) ==>
      o[ms[i].0] == ms[i].1
    decreases |ms|
  {
    if ms == [] then map[]
    else
      var last := ms[|ms| - 1];
      var front := ms[..|ms| - 1];
      assert ms == front + [last];
      assert forall i :: 0 <= i < |front| ==> front[i] == ms[i];
      ObjectOf(front)[last.0 := last.1]
  }

  /** No key occurs twice among the members. */
  predicate DistinctKeys(ms: Members) {
    forall i, j :: 0 <= i < j < |ms| ==> ms[i].0 != ms[j].0
  }

  /** With distinct keys, every member's value is what the object holds under its key. */
  lemma {:induction false} ObjectOfDistinct(ms: Members)
    requires DistinctKeys(ms)
    ensures forall i :: 0 <= i < |ms| ==> ObjectOf(ms)[ms[i].0] == ms[i].1
    decreases |ms|
  {
    if ms != [] {
      var front := ms[..|ms| - 1];
      assert DistinctKeys(front);
      ObjectOfDistinct(front);
      forall i | 0 <= i < |ms|
        ensures ObjectOf(ms)[ms[i].0] == ms[i].1
      {
        if i < |ms| - 1 {
          assert front[i] == ms[i];
          assert ms[i].0 != ms[|ms| - 1].0;
        }
      }
    }
  }

  /** With distinct keys, the object holds a key exactly when some member carries it. */
  lemma ObjectLookup(ms: Members, k: string, v: Option<string>)
    requires DistinctKeys(ms)
    requires v.Some? ==> (k, v.value) in ms
    requires v.None? ==> forall m :: m in ms ==> m.0 != k
    ensures Get(ObjectOf(ms), k) == v
  {
    ObjectOfDistinct(ms);
    if v.Some? {
      var i :| 0 <= i < |ms| && ms[i] == (k, v.value);
    }
  }

  // ---------------------------------------------------------------- round trip

  /** Reading back one escaped character yields that character. */
  lemma ParseEscapedChar(c: char, t: string)
    ensures ParseStringBody(EscapeChar(c) + t) == Cons(c, ParseStringBody(t))
  {
    if c == '"' || c == '\\' || c == Backspace || c == FormFeed || c == '\n' || c == '\r' || c == '\t' {
      ParseShortEscape(c, t);
    } else if c < ' ' {
      ParseControlEscape(c, t);
    } else {
      assert (EscapeChar(c) + t)[1..] == t;
    }
  }

  /** A backslash followed by an escape sequence that decodes to `c`. */
  lemma ParseBackslashed(e: string, c: char, t: string)
    requires Unescape(e + t) == Some((c, t))
    ensures ParseStringBody("\\" + e + t) == Cons(c, ParseStringBody(t))
  {
    assert ("\\" + e + t)[1..] == e + t;
  }

  /** The two-character escapes. */
  lemma ParseShortEscape(c: char, t: string)
    requires c == '"' || c == '\\' || c == Backspace || c == FormFeed || c == '\n' || c == '\r' || c == '\t'
    ensures ParseStringBody(EscapeChar(c) + t) == Cons(c, ParseStringBody(t))
  {
    var e := EscapeChar(c)[1..];
    assert EscapeChar(c) == "\\" + e && |e| == 1;
    assert (e + t)[1..] == t;
    ParseBackslashed(e, c, t);
  }

  /** The `\u00xx` escapes of the other control characters. */
  lemma ParseControlEscape(c: char, t: string)
    requires c < ' '
    requires !(c == '"' || c == '\\' || c == Backspace || c == FormFeed || c == '\n' || c == '\r' || c == '\t')
    ensures ParseStringBody(EscapeChar(c) + t) == Cons(c, ParseStringBody(t))
  {
    var hi, lo := c as int / 16, c as int % 16;
    HexDigitInverse(hi);
    HexDigitInverse(lo);
    HexDigitInverse(0);
    var e := ['u', '0', '0', HexDigit(hi), HexDigit(lo)];
    assert EscapeChar(c) == "\\" + e;
    assert (e + t)[5..] == t;
    ParseBackslashed(e, c, t);
  }

  /** Reading back an escaped string and its closing quote yields the string. */
  lemma {:induction false} ParseEscapedString(x: string, rest: string)
    ensures ParseStringBody(EscapeString(x) + "\"" + rest) == Some((x, rest))
    decreases |x|
  {
    if x == [] {
      assert EscapeString(x) + "\"" + rest == "\"" + rest;
      assert ("\"" + rest)[1..] == rest;
    } else {
      var t := EscapeString(x[1..]) + "\"" + rest;
      assert EscapeString(x) + "\"" + rest == EscapeChar(x[0]) + t;
      ParseEscapedChar(x[0], t);
      ParseEscapedString(x[1..], rest);
      assert [x[0]] + x[1..] == x;
    }
  }

  /** Reading back a written member yields that member. */
  lemma ParseWrittenMember(m: (string, string), rest: string)
    ensures ParseMember(MemberText(m) + rest) == Some((m, rest))
  {
    var b := EscapeString(m.1) + "\"" + rest;
    var a := EscapeString(m.0) + "\"" + (":\"" + b);
    MemberTextShape(m, rest);
    ParseEscapedString(m.0, ":\"" + b);
    ParseEscapedString(m.1, rest);
    ParseMemberOf(a, m.0, b, m.1, rest);
  }

  /** A written member followed by `rest`, regrouped the way the reader consumes it. */
  lemma MemberTextShape(m: (string, string), rest: string)
    ensures MemberText(m) + rest
         == "\"" + (EscapeString(m.0) + "\"" + (":\"" + (EscapeString(m.1) + "\"" + rest)))
  {
    var e0, e1 := EscapeString(m.0), EscapeString(m.1);
    var tail := e1 + "\"" + rest;
    assert Quote(m.1) + rest == "\"" + tail by { Assoc3("\"" + e1, "\"", rest); Assoc3("\"", e1, "\"" + rest); }
    assert ":" + ("\"" + tail) == ":\"" + tail;
    Assoc3(Quote(m.0), ":", Quote(m.1));
    Assoc3(Quote(m.0) + ":", Quote(m.1), rest);
    Assoc3(Quote(m.0), ":", Quote(m.1) + rest);
    Assoc3("\"" + e0, "\"", ":\"" + tail);
    Assoc3("\"", e0, "\"" + (":\"" + tail));
    Assoc3(e0, "\"", ":\"" + tail);
  }

  /** Concatenation regrouped. */
  lemma Assoc3(a: string, b: string, c: string)
    ensures a + b + c == a + (b + c)
  {
  }

  /** `ParseMember` when the key string, then `:"`, then the value string read. */
  lemma ParseMemberOf(a: string, k: string, b: string, v: string, u: string)
    requires ParseStringBody(a) == Some((k, ":\"" + b))
    requires ParseStringBody(b) == Some((v, u))
    ensures ParseMember("\"" + a) == Some(((k, v), u))
  {
    assert ("\"" + a)[1..] == a;
    assert (":\"" + b)[2..] == b;
  }

  /** `ParseMembers` after one member, when a closing brace follows it. */
  lemma ParseMembersLast(s: string, m: (string, string), t: string)
    requires ParseMember(s) == Some((m, t))
    requires |t| > 0 && t[0] == '}'
    ensures ParseMembers(s) == Some(([m], t[1..]))
  {
  }

  /** `ParseMembers` after one member, when a comma and further members follow it. */
  lemma ParseMembersNext(s: string, m: (string, string), t: string, ms: Members, rest: string)
    requires ParseMember(s) == Some((m, t))
    requires |t| > 0 && t[0] == ','
    requires ParseMembers(t[1..]) == Some((ms, rest))
    ensures ParseMembers(s) == Some(([m] + ms, rest))
  {
  }

  /** Reading back written members and the closing brace yields the members. */
  lemma {:induction false} ParseWrittenMembers(ms: Members, rest: string)
    requires ms != []
    ensures ParseMembers(MembersText(ms) + "}" + rest) == Some((ms, rest))
    decreases |ms|
  {
    if |ms| == 1 {
      assert MembersText(ms) == MemberText(ms[0]);
      Assoc3(MemberText(ms[0]), "}", rest);
      ParseLastWrittenMember(ms[0], rest);
      assert [ms[0]] == ms;
    } else {
      var u := MembersText(ms[1..]) + "}" + rest;
      MembersTextShape(ms, rest);
      ParseWrittenMembers(ms[1..], rest);
      ParseNextWrittenMember(ms[0], u, ms[1..], rest);
      assert [ms[0]] + ms[1..] == ms;
    }
  }

  /** Two or more written members followed by `rest`, split after the first member's comma. */
  lemma MembersTextShape(ms: Members, rest: string)
    requires |ms| >= 2
    ensures MembersText(ms) + "}" + rest == MemberText(ms[0]) + ("," + (MembersText(ms[1..]) + "}" + rest))
  {
    var a, b := MemberText(ms[0]), MembersText(ms[1..]);
    assert MembersText(ms) == a + "," + b;
    Assoc3(a + "," + b, "}", rest);
    Assoc3(a + ",", b, "}" + rest);
    Assoc3(a, ",", b + ("}" + rest));
    Assoc3(b, "}", rest);
  }

  /** One written member followed by the closing brace. */
  lemma ParseLastWrittenMember(m: (string, string), rest: string)
    ensures ParseMembers(MemberText(m) + ("}" + rest)) == Some(([m], rest))
  {
    var t := "}" + rest;
    ParseWrittenMember(m, t);
    assert t[1..] == rest;
    ParseMembersLast(MemberText(m) + t, m, t);
  }

  /** One written member, a comma, and members that read back. */
  lemma ParseNextWrittenMember(m: (string, string), u: string, ms: Members, rest: string)
    requires ParseMembers(u) == Some((ms, rest))
    ensures ParseMembers(MemberText(m) + ("," + u)) == Some(([m] + ms, rest))
  {
    var t := "," + u;
    ParseWrittenMember(m, t);
    assert t[1..] == u;
    ParseMembersNext(MemberText(m) + t, m, t, ms, rest);
  }

  /** `Parse` of an object text whose members parse to the end of the input. */
  lemma ParseObjectText(s: string, ms: Members)
    requires |s| >= 2 && s[0] == '{' && s[1] != '}'
    requires ParseMembers(s[1..]) == Some((ms, []))
    ensures Parse(s) == Some(Object(ms))
  {
  }

  /** `JSON.parse(JSON.stringify(o))` gives back the members of `o`, in order. */
  lemma {:induction false} ParseStringify(ms: Members)
    ensures Parse(Stringify(ms)) == Some(Object(ms))
  {
    if ms == [] {
      assert Stringify(ms) == "{}";
    } else {
      ParseWrittenObject(ms, Stringify(ms));
    }
  }

  /** The non-empty case of `ParseStringify`. */
  lemma ParseWrittenObject(ms: Members, s: string)
    requires ms != [] && s == "{" + MembersText(ms) + "}"
    ensures Parse(s) == Some(Object(ms))
  {
    var inner := MembersText(ms);
    assert s[1..] == inner + "}" + "" by { Assoc3("{", inner, "}"); }
    ParseWrittenMembers(ms, "");
    WrittenMembersStartWithQuote(ms);
    ParseObjectText(s, ms);
  }

  /** Written members begin with the opening quote of the first key. */
  lemma WrittenMembersStartWithQuote(ms: Members)
    requires ms != []
    ensures |MembersText(ms)| > 0 && MembersText(ms)[0] == '"'
  {
  }
}

=== FILE: login.dfy ===
/**
 * The login page's submit handler (`front_end/src/pages/Login.tsx`).
 *
 * A submission is two steps: `Begin` is what happens before the request is
 * awaited (the form becomes busy, the error is cleared, the request is
 * built); `Finish` is what happens once the request settles. The form is
 * Idle when `loading` is false and Submitting while it is true; a finished
 * attempt has Succeeded when it navigates and Failed when it does not.
 */
module Login {
  import opened Wrappers
  import opened Storage
  import opened Http
  import Json

  const LoginFailedMessage := "Failed to login. Please check your credentials."

  /** The page's state: its inputs, the busy flag and the displayed error. */
  datatype LoginForm = LoginForm(
    email: string,
    password: string,
    rememberMe: bool,
    loading: bool,
    error: string)

  /** The JSON body posted to `/auth/login/`. */
  datatype LoginRequest = LoginRequest(email: string, password: string)

  /** `response.data`, as an object of strings. */
  type ResponseBody = map<string, string>

  type LoginOutcome = Outcome<ResponseBody, ResponseBody>

  /**
   * The object the page serialises under the `user` key. A field read from
   * the response is `None` when the response lacks it (`undefined` in the
   * page), and `JSON.stringify` then leaves that member out.
   */
  datatype UserRecord = UserRecord(
    username: Option<string>,
    role: Option<string>,
    email: string,
    firstName: Option<string>,
    lastName: Option<string>)

  /** The submit button is disabled while a request is in flight. */
  predicate SubmitEnabled(f: LoginForm) {
    !f.loading
  }

  /** A member for `key` when the value is defined, none otherwise. */
  function Member(key: string, v: Option<string>): (ms: Json.Members)
    ensures |ms| <= 1 && forall m :: m in ms ==> m.0 == key
    ensures v.Some? ==> ms == [(key, v.value)]
    ensures v.None? ==> ms == []
  {
    if v.Some? then [(key, v.value)] else []
  }

  /** The keys the record can be written under. */
  const UserRecordKeys: set<string> := {"username", "role", "email", "first_name", "last_name"}

  /** The members `JSON.stringify` writes for the record, in the page's order. */
  function UserMembers(u: UserRecord): (ms: Json.Members)
    ensures Json.DistinctKeys(ms)
    ensures ("email", u.email) in ms
    ensures forall m :: m in ms ==> m.0 in UserRecordKeys
  {
    Member("username", u.username) + Member("role", u.role) + [("email", u.email)]
      + Member("first_name", u.firstName) + Member("last_name", u.lastName)
  }

  /**
   * The object a reader gets back from the record's members: exactly the
   * defined fields, each with its value.
   */
  lemma {:induction false} UserObjectFields(u: UserRecord)
    ensures var o := Json.ObjectOf(UserMembers(u));
      && o.Keys <= UserRecordKeys
      && Get(o, "email") == Some(u.email)
      && Get(o, "username") == u.username
      && Get(o, "role") == u.role
      && Get(o, "first_name") == u.firstName
      && Get(o, "last_name") == u.lastName
  {
    OptionalFieldReadBack(u, "username", u.username);
    OptionalFieldReadBack(u, "role", u.role);
    OptionalFieldReadBack(u, "first_name", u.firstName);
    OptionalFieldReadBack(u, "last_name", u.lastName);
    Json.ObjectLookup(UserMembers(u), "email", Some(u.email));
  }

  /** One optional field of the record reads back as it was, defined or not. */
  lemma OptionalFieldReadBack(u: UserRecord, k: string, v: Option<string>)
    requires (k, v) in [("username", u.username), ("role", u.role),
                        ("first_name", u.firstName), ("last_name", u.lastName)]
    ensures Get(Json.ObjectOf(UserMembers(u)), k) == v
  {
    var ms := UserMembers(u);
    var a, b, c, d := Member("username", u.username), Member("role", u.role),
                      Member("first_name", u.firstName), Member("last_name", u.lastName);
    assert ms == a + b + [("email", u.email)] + c + d;
    Json.ObjectLookup(ms, k, v);
  }

  /** The record built from a successful response and the e-mail typed in the form. */
  function UserFromResponse(body: ResponseBody, email: string): (u: UserRecord)
    ensures u.email == email
    ensures u.username == Get(body, "username") && u.role == Get(body, "role")
    ensures u.firstName == Get(body, "first_name") && u.lastName == Get(body, "last_name")
  {
    UserRecord(Get(body, "username"), Get(body, "role"), email,
               Get(body, "first_name"), Get(body, "last_name"))
  }

  /** `String(v)`, as `setItem` applies it: an undefined value is stored as "undefined". */
  function StoredString(v: Option<string>): string {
    v.GetOr("undefined")
  }

  /**
   * The error shown after a failed request: a truthy `detail` from the
   * response data, otherwise the generic message.
   */
  function FailureMessage(data: Option<ResponseBody>): (msg: string)
    ensures msg != ""
    ensures msg != LoginFailedMessage ==>
      data.Some? && "detail" in data.value && msg == data.value["detail"]
    ensures data.Some? && "detail" in data.value && data.value["detail"] != "" ==>
      msg == data.value["detail"]
    ensures data.None? || "detail" !in data.value || data.value["detail"] == "" ==>
      msg == LoginFailedMessage
  {
    match data
    case Some(d) =>
      if "detail" in d && d["detail"] != "" then d["detail"] else LoginFailedMessage
    case None => LoginFailedMessage
  }

  /** Before the request: busy, error cleared, request built from the two credentials. */
  function Begin(f: LoginForm): (r: (LoginForm, LoginRequest))
    ensures !SubmitEnabled(r.0) && r.0.error == ""
    ensures r.0.email == f.email && r.0.password == f.password && r.0.rememberMe == f.rememberMe
    ensures r.1.email == f.email && r.1.password == f.password
  {
    (f.(loading := true, error := ""), LoginRequest(f.email, f.password))
  }

  /** The state after one settled request: form, storage and navigation target. */
  datatype LoginStep = LoginStep(form: LoginForm, store: Store, nav: Option<string>)

  /**
   * The two `setItem` calls of a successful login: the access token and the
   * serialised user record; every other key keeps its value.
   */
  function WriteSession(store: Store, token: string, record: string): (r: Store)
    ensures GetItem(r, TokenKey) == Some(token)
    ensures GetItem(r, UserKey) == Some(record)
    ensures r.Keys == store.Keys + {TokenKey, UserKey}
    ensures forall k :: k in store && k != TokenKey && k != UserKey ==> r[k] == store[k]
  {
    var s1 := SetItem(store, TokenKey, token);
    var s2 := SetItem(s1, UserKey, record);
    assert s2[TokenKey] == s1[TokenKey];
    s2
  }

  /** What a successful login stores under `token`: the access token, or "undefined" without one. */
  function SessionToken(body: ResponseBody): (t: string)
    ensures "access" in body ==> t == body["access"]
    ensures "access" !in body ==> t == "undefined"
  {
    StoredString(Get(body, "access"))
  }

  /** What a successful login stores under `user`: the record built from the response and the form. */
  function SessionRecord(body: ResponseBody, email: string): string {
    Json.Stringify(UserMembers(UserFromResponse(body, email)))
  }

  /** After the request settles: writes the session and navigates, or shows an error. */
  function Finish(f: LoginForm, store: Store, outcome: LoginOutcome): (r: LoginStep)
    ensures SubmitEnabled(r.form)
    ensures r.form.email == f.email && r.form.password == f.password && r.form.rememberMe == f.rememberMe
    ensures outcome.Ok? ==>
      && r.nav == Some(DashboardRoute)
      && r.form.error == f.error
      && r.store == WriteSession(store, SessionToken(outcome.body), SessionRecord(outcome.body, f.email))
    ensures !outcome.Ok? ==>
      && r.nav == None
      && r.store == store
      && r.form.error == FailureMessage(ErrorData(outcome))
  {
    match outcome
    case Ok(body) =>
      var session := WriteSession(store, SessionToken(body), SessionRecord(body, f.email));
      LoginStep(f.(loading := false), session, Some(DashboardRoute))
    case _ =>
      LoginStep(f.(loading := false, error := FailureMessage(ErrorData(outcome))), store, None)
  }

  /** One whole submission: the request sent and the state once it settles. */
  datatype LoginAttempt = LoginAttempt(request: LoginRequest, step: LoginStep)

  function Submit(f: LoginForm, store: Store, outcome: LoginOutcome): (r: LoginAttempt)
    ensures r.request == LoginRequest(f.email, f.password)
    ensures !r.step.form.loading
    ensures outcome.Ok? ==> r.step.form.error == "" && r.step.nav == Some(DashboardRoute)
    ensures !outcome.Ok? ==> r.step.store == store && r.step.nav == None && r.step.form.error != ""
  {
    var (busy, request) := Begin(f);
    LoginAttempt(request, Finish(busy, store, outcome))
  }

  /** The "remember me" box changes neither the request, the storage, the navigation nor the error. */
  lemma RememberMeIgnored(f: LoginForm, b: bool, store: Store, outcome: LoginOutcome)
    ensures var r1, r2 := Submit(f, store, outcome), Submit(f.(rememberMe := b), store, outcome);
      && r1.request == r2.request
      && r1.step.store == r2.step.store
      && r1.step.nav == r2.step.nav
      && r1.step.form.error == r2.step.form.error
  {
  }
}

=== FILE: profile.dfy ===
/**
 * The profile page (`front_end/src/pages/Profile.tsx`): it reads the
 * stored user once when it mounts, shows it, and offers a logout that
 * drops the stored user and redirects to the login page.
 */
module Profile {
  import opened Wrappers
  import opened Storage
  import opened Http
  import Json

  const NoUserMessage := "No user data found."

  /** The page's `user` state: the parsed object, or `null`. */
  type UserState = Option<map<string, string>>

  /**
   * What mounting does. `ParseThrew` is the unguarded `JSON.parse`
   * throwing inside the effect; the page has no handler for it.
   */
  datatype MountResult = Mounted(user: UserState) | ParseThrew

  /** The mount effect: read `user` and, when it is a non-empty string, parse it. */
  function Mount(store: Store): (r: MountResult)
    ensures r.ParseThrew? <==>
      UserKey in store && store[UserKey] != "" && Json.Parse(store[UserKey]).None?
    ensures r.Mounted? && r.user.Some? <==>
      UserKey in store && store[UserKey] != "" && Json.Parse(store[UserKey]).Some?
      && Json.Parse(store[UserKey]).value.Object?
    ensures r.Mounted? && r.user.Some? ==>
      r.user.value == Json.ObjectOf(Json.Parse(store[UserKey]).value.members)
    ensures UserKey !in store || store[UserKey] == "" ==> r == Mounted(None)
  {
    match GetItem(store, UserKey)
    case None => Mounted(None)
    case Some(text) =>
      if text == "" then Mounted(None)
      else
        match Json.Parse(text)
        case None => ParseThrew
        case Some(Null) => Mounted(None)
        case Some(Object(ms)) => Mounted(Some(Json.ObjectOf(ms)))
  }

  /**
   * A stored value whose first character cannot begin any JSON text (not a
   * value's first character, not whitespace) makes the mount throw:
   * nothing guards the parse.
   */
  lemma MalformedUserThrows(store: Store)
    requires UserKey in store && store[UserKey] != ""
    requires store[UserKey][0] !in "{[\"-0123456789tfn \t\n\r"
    ensures Mount(store) == ParseThrew
  {
  }

  /** Everything `handleLogout` does: new storage, new `user` state, redirect target. */
  datatype LogoutResult = LogoutResult(store: Store, user: UserState, redirect: string)

  /** `handleLogout`: remove `user` only, clear the state, go to the login page. */
  function Logout(store: Store): (r: LogoutResult)
    ensures r.store.Keys == store.Keys - {UserKey}
    ensures forall k :: k in r.store ==> r.store[k] == store[k]
    ensures GetItem(r.store, TokenKey) == GetItem(store, TokenKey)
    ensures r.user == None && r.redirect == LoginRoute
  {
    LogoutResult(RemoveItem(store, UserKey), None, LoginRoute)
  }

  /** Logging out twice leaves storage as logging out once. */
  lemma LogoutIdempotent(store: Store)
    ensures Logout(Logout(store).store) == Logout(store)
  {
    RemoveItemIdempotent(store, UserKey);
  }

  /** After logout the page mounts without a user, however often it logged out. */
  lemma MountAfterLogout(store: Store)
    ensures Mount(Logout(store).store) == Mounted(None)
    ensures Mount(Logout(Logout(store).store).store) == Mounted(None)
  {
    LogoutIdempotent(store);
  }

  /** The profile card: the user's details with a logout button, or the empty message. */
  datatype ProfileCard =
    | UserCard(name: string, username: Option<string>, email: string)
    | EmptyCard(message: string)

  /** How JSX renders a missing property: as nothing. */
  function Shown(o: map<string, string>, key: string): string {
    Get(o, key).GetOr("")
  }

  /** The card the page renders for a `user` state. */
  function Card(user: UserState): (c: ProfileCard)
    ensures c.EmptyCard? <==> user.None?
    ensures c.EmptyCard? ==> c.message == NoUserMessage
    ensures LogoutOffered(c) <==> user.Some?
    ensures c.UserCard? ==>
      && c.email == Shown(user.value, "email")
      && c.name == Shown(user.value, "first_name") + " " + Shown(user.value, "last_name")
      && (c.username.Some? <==> "username" in user.value && user.value["username"] != "")
      && (c.username.Some? ==> c.username.value == user.value["username"])
  {
    match user
    case None => EmptyCard(NoUserMessage)
    case Some(o) =>
      var username := if "username" in o && o["username"] != "" then Some(o["username"]) else None;
      UserCard(Shown(o, "first_name") + " " + Shown(o, "last_name"), username, Shown(o, "email"))
  }

  /** The logout button is on the card exactly when there is a user. */
  predicate LogoutOffered(c: ProfileCard) {
    c.UserCard?
  }
}

=== FILE: serializers.dfy ===
/**
 * The account serializers of the back end
 * (`SPA_Backend/apps/accounts/serializers.py`): the registration validator
 * with its field constraints, cross-field check and `create`, and the
 * login serializer that adds the user's details to the token response.
 *
 * The behaviour the field declarations inherit from the REST framework is
 * modelled too: a `CharField` strips surrounding whitespace, refuses a
 * missing value and a blank one, then runs its validators on the stripped
 * value and reports every failure together (the declared validators first,
 * then the maximum, then the minimum length). The e-mail format check and
 * Django's password policy are library code and enter as parameters.
 */
module Serializers {
  import opened Wrappers

  /** The request's JSON object, with string values. */
  type RequestData = map<string, string>

  /** Why a field was refused. `Rejected` carries a message produced elsewhere. */
  datatype FieldError =
    | Required
    | Blank
    | TooShort(min: nat)
    | TooLong(max: nat)
    | InvalidEmail
    | InvalidChoice(input: string)
    | Rejected(message: string)

  /** The serializer's fields. */
  datatype Field = Email | Password | Password2 | FirstName | LastName | Role {
    /** The field's name in request and error bodies. */
    function Key(): (k: string)
      ensures k in ["email", "password", "password2", "first_name", "last_name", "role"]
    {
      match this
      case Email => "email"
      case Password => "password"
      case Password2 => "password2"
      case FirstName => "first_name"
      case LastName => "last_name"
      case Role => "role"
    }
  }

  const AllFields: set<Field> := {Email, Password, Password2, FirstName, LastName, Role}

  /** Distinct fields have distinct names. */
  lemma KeyInjective(f: Field, g: Field)
    ensures f.Key() == g.Key() ==> f == g
  {
  }

  /** A validation error body: the errors reported for each failing field. */
  type ErrorDict = map<Field, seq<FieldError>>

  /** The library checks the serializer delegates to. */
  datatype LibraryChecks = LibraryChecks(
    isEmail: string -> bool,                // `EmailField`'s format check
    passwordProblems: string -> seq<string>) // `validate_password`: its messages, none when accepted

  const PasswordMinLength: nat := 8
  const NameMaxLength: nat := 30
  const RoleChoices: seq<string> := ["student", "admin"]
  const DefaultRole := "student"
  const PasswordMismatchMessage := "Password fields didn't match."

  // ---------------------------------------------------------------- whitespace

  /** Python's `str.isspace` for one character. */
  predicate IsSpace(c: char) {
    || ('\t' <= c <= '\r')
    || ('\U{1C}' <= c <= ' ')
    || c == '\U{85}' || c == '\U{A0}' || c == '\U{1680}'
    || ('\U{2000}' <= c <= '\U{200A}')
    || c == '\U{2028}' || c == '\U{2029}' || c == '\U{202F}' || c == '\U{205F}' || c == '\U{3000}'
  }

  /** Drops leading whitespace. */
  function TrimStart(s: string): (r: string)
    ensures |r| <= |s| && r == s[|s| - |r|..]
    ensures forall k :: 0 <= k < |s| - |r| ==> IsSpace(s[k])
    ensures r == [] || !IsSpace(r[0])
  {
    if s != [] && IsSpace(s[0]) then TrimStart(s[1..]) else s
  }

  /** Drops trailing whitespace. */
  function TrimEnd(s: string): (r: string)
    ensures |r| <= |s| && r == s[..|r|]
    ensures forall k :: |r| <= k < |s| ==> IsSpace(s[k])
    ensures r == [] || !IsSpace(r[|r| - 1])
  {
    if s != [] && IsSpace(s[|s| - 1]) then TrimEnd(s[..|s| - 1]) else s
  }

  /** Python's `str.strip()`, which `CharField` applies to its input. */
  function Strip(s: string): (r: string)
    ensures |r| <= |s|
    ensures r == [] <==> forall k :: 0 <= k < |s| ==> IsSpace(s[k])
    ensures r != [] ==> !IsSpace(r[0]) && !IsSpace(r[|r| - 1])
    ensures exists i, j :: 0 <= i <= j <= |s| && r == s[i..j] && SpaceOutside(s, i, j)
  {
    var t := TrimStart(s);
    var r := TrimEnd(t);
    StripIsSlice(s, t, r);
    assert r == [] ==> t == [];
    assert (forall k :: 0 <= k < |s| ==> IsSpace(s[k])) ==> r == [] by {
      if r != [] {
        assert t[0] == r[0];
        assert s[|s| - |t|] == t[0];
      }
    }
    r
  }

  /** Every character of `s` before index `i` or from index `j` on is whitespace. */
  predicate SpaceOutside(s: string, i: int, j: int) {
    forall k :: 0 <= k < |s| && (k < i || k >= j) ==> IsSpace(s[k])
  }

  /**
   * Dropping whitespace from the front (giving `t`) and then from the back
   * (giving `r`) leaves a slice of the input with only whitespace around it.
   */
  lemma StripIsSlice(s: string, t: string, r: string)
    requires |t| <= |s| && t == s[|s| - |t|..] && forall k :: 0 <= k < |s| - |t| ==> IsSpace(s[k])
    requires |r| <= |t| && r == t[..|r|] && forall k :: |r| <= k < |t| ==> IsSpace(t[k])
    ensures exists i, j :: 0 <= i <= j <= |s| && r == s[i..j] && SpaceOutside(s, i, j)
  {
    var i := |s| - |t|;
    assert r == s[i..i + |r|];
    forall k | 0 <= k < |s| && (k < i || k >= i + |r|) ensures IsSpace(s[k]) {
      if k >= i + |r| {
        assert s[k] == t[k - i];
      }
    }
    assert SpaceOutside(s, i, i + |r|);
  }

  // ---------------------------------------------------------------- fields

  /**
   * A `CharField`: missing is `Required`, blank after stripping is `Blank`;
   * otherwise every failing check on the stripped value is reported.
   */
  function CharField(data: Option<string>, maxLength: Option<nat>, minLength: Option<nat>,
                     validators: string -> seq<FieldError>): (r: Result<string, seq<FieldError>>)
    ensures data.None? ==> r == Failure([Required])
    ensures data.Some? && Strip(data.value) == "" ==> r == Failure([Blank])
    ensures r.Failure? ==> r.error != []
    ensures r.Success? <==>
      && data.Some? && Strip(data.value) != ""
      && validators(Strip(data.value)) == []
      && (maxLength.Some? ==> |Strip(data.value)| <= maxLength.value)
      && (minLength.Some? ==> |Strip(data.value)| >= minLength.value)
    ensures r.Success? ==> r.value == Strip(data.value)
    ensures data.Some? && Strip(data.value) != "" && minLength.Some? && |Strip(data.value)| < minLength.value ==>
      r.Failure? && TooShort(minLength.value) in r.error
    ensures data.Some? && Strip(data.value) != "" && maxLength.Some? && |Strip(data.value)| > maxLength.value ==>
      r.Failure? && TooLong(maxLength.value) in r.error
    // The declared validators' errors come first, in their order, and only
    // the two length errors can follow them.
    ensures data.Some? && Strip(data.value) != "" && r.Failure? ==>
      var pre := validators(Strip(data.value));
      && |pre| <= |r.error| && r.error[..|pre|] == pre
      && forall i :: |pre| <= i < |r.error| ==>
           (maxLength.Some? && r.error[i] == TooLong(maxLength.value))
           || (minLength.Some? && r.error[i] == TooShort(minLength.value))
  {
    match data
    case None => Failure([Required])
    case Some(raw) =>
      var v := Strip(raw);
      if v == "" then Failure([Blank])
      else
        var errors := validators(v)
          + (if maxLength.Some? && |v| > maxLength.value then [TooLong(maxLength.value)] else [])
          + (if minLength.Some? && |v| < minLength.value then [TooShort(minLength.value)] else []);
        if errors == [] then Success(v) else Failure(errors)
  }

  function NoValidators(v: string): seq<FieldError> {
    []
  }

  /** `validate_password`'s messages as field errors. */
  function PolicyErrors(msgs: seq<string>): (errs: seq<FieldError>)
    ensures |errs| == |msgs|
    ensures forall i :: 0 <= i < |msgs| ==> errs[i] == Rejected(msgs[i])
  {
    seq(|msgs|, i requires 0 <= i < |msgs| => Rejected(msgs[i]))
  }

  /** The stripped text submitted for `f`, when there is one. */
  function Submitted(input: RequestData, f: Field): Option<string> {
    if f.Key() in input then Some(Strip(input[f.Key()])) else None
  }

  /**
   * Whether a field passes, stated from its declaration: present and not
   * blank after stripping, then the field's own constraints; `role` may be
   * omitted but must otherwise be one of the choices, as sent.
   */
  predicate Acceptable(input: RequestData, checks: LibraryChecks, f: Field) {
    var v := Submitted(input, f);
    match f
    case Email => v.Some? && v.value != "" && checks.isEmail(v.value)
    case Password => v.Some? && |v.value| >= PasswordMinLength && checks.passwordProblems(v.value) == []
    case Password2 => v.Some? && v.value != ""
    case FirstName => v.Some? && v.value != "" && |v.value| <= NameMaxLength
    case LastName => v.Some? && v.value != "" && |v.value| <= NameMaxLength
    case Role => Role.Key() !in input || input[Role.Key()] in RoleChoices
  }

  /** Every field passes. */
  predicate FieldsAcceptable(input: RequestData, checks: LibraryChecks) {
    && Acceptable(input, checks, Email)
    && Acceptable(input, checks, Password)
    && Acceptable(input, checks, Password2)
    && Acceptable(input, checks, FirstName)
    && Acceptable(input, checks, LastName)
    && Acceptable(input, checks, Role)
  }

  /** `AllFields` lists every field. */
  lemma AllFieldsComplete(f: Field)
    ensures f in AllFields
  {
    match f
    case Email =>
    case Password =>
    case Password2 =>
    case FirstName =>
    case LastName =>
    case Role =>
  }

  /** The role: `student` or `admin`, optional, defaulting to `student`. */
  function RoleField(data: Option<string>): (r: Result<string, seq<FieldError>>)
    ensures data.None? ==> r == Success(DefaultRole)
    ensures r.Success? <==> data.None? || data.value in RoleChoices
    ensures r.Success? ==> r.value in RoleChoices
    ensures data.Some? && data.value !in RoleChoices ==> r == Failure([InvalidChoice(data.value)])
  {
    match data
    case None => Success(DefaultRole)
    case Some(v) => if v in RoleChoices then Success(v) else Failure([InvalidChoice(v)])
  }

  /**
   * The check of one field, as declared: a required e-mail in e-mail
   * format; a password of at least eight characters that the password
   * policy accepts; a confirmation with no further constraint; first and
   * last names of at most thirty characters; and the role choice.
   */
  function FieldResult(input: RequestData, checks: LibraryChecks, f: Field): (r: Result<string, seq<FieldError>>)
    ensures r.Success? <==> Acceptable(input, checks, f)
    ensures r.Success? && f != Role ==> r.value == Strip(input[f.Key()])
    ensures f == Password && Submitted(input, f).Some? && 0 < |Submitted(input, f).value| < PasswordMinLength ==>
      r.Failure? && TooShort(PasswordMinLength) in r.error
    ensures f in {FirstName, LastName} && Submitted(input, f).Some? && |Submitted(input, f).value| > NameMaxLength ==>
      r.Failure? && TooLong(NameMaxLength) in r.error
    ensures f != Role && f.Key() !in input ==> r == Failure([Required])
    ensures r.Failure? ==> r.error != []
    ensures f == Email && Submitted(input, f).Some? && Submitted(input, f).value != ""
            && !checks.isEmail(Submitted(input, f).value) ==>
      r == Failure([InvalidEmail])
    ensures f == Password && Submitted(input, f).Some? && Submitted(input, f).value != "" && r.Failure? ==>
      var policy := PolicyErrors(checks.passwordProblems(Submitted(input, f).value));
      |policy| <= |r.error| && r.error[..|policy|] == policy
  {
    var data := Get(input, f.Key());
    match f
    case Email => EmailField(data, checks)
    case Password => PasswordField(data, checks)
    case Password2 => CharField(data, None, None, NoValidators)
    case FirstName => CharField(data, Some(NameMaxLength), None, NoValidators)
    case LastName => CharField(data, Some(NameMaxLength), None, NoValidators)
    case Role => RoleField(data)
  }

  /** The e-mail: required, and in e-mail format. */
  function EmailField(data: Option<string>, checks: LibraryChecks): (r: Result<string, seq<FieldError>>)
    ensures r.Success? <==> data.Some? && Strip(data.value) != "" && checks.isEmail(Strip(data.value))
    ensures data.Some? && Strip(data.value) != "" && !checks.isEmail(Strip(data.value)) ==>
      r == Failure([InvalidEmail])
  {
    CharField(data, None, None, v => if checks.isEmail(v) then [] else [InvalidEmail])
  }

  /** The password: required, at least eight characters, and accepted by the password policy. */
  function PasswordField(data: Option<string>, checks: LibraryChecks): (r: Result<string, seq<FieldError>>)
    ensures r.Success? <==>
      data.Some? && |Strip(data.value)| >= PasswordMinLength && checks.passwordProblems(Strip(data.value)) == []
    ensures data.Some? && Strip(data.value) != "" && r.Failure? ==>
      var policy := PolicyErrors(checks.passwordProblems(Strip(data.value)));
      |policy| <= |r.error| && r.error[..|policy|] == policy
  {
    var r := CharField(data, None, Some(PasswordMinLength), v => PolicyErrors(checks.passwordProblems(v)));
    assert data.Some? ==>
      (PolicyErrors(checks.passwordProblems(Strip(data.value))) == []
       <==> checks.passwordProblems(Strip(data.value)) == []);
    r
  }

  // ---------------------------------------------------------------- registration

  /** The serializer's validated data. */
  datatype RegisterData = RegisterData(
    email: string,
    password: string,
    password2: string,
    firstName: string,
    lastName: string,
    role: string)

  /** The errors of the field stage: one entry per failing field, with that field's errors. */
  function FieldErrors(input: RequestData, checks: LibraryChecks): (e: ErrorDict)
    ensures forall f :: f in e <==> !Acceptable(input, checks, f)
    ensures forall f :: f in e ==> e[f] == FieldResult(input, checks, f).error
  {
    forall f: Field ensures f in AllFields {
      AllFieldsComplete(f);
    }
    map f | f in AllFields && FieldResult(input, checks, f).Failure? :: FieldResult(input, checks, f).error
  }

  /**
   * The field stage (`to_internal_value`): every field is checked, and the
   * validated data exists only when none failed.
   */
  function ToInternalValue(input: RequestData, checks: LibraryChecks): (r: Result<RegisterData, ErrorDict>)
    ensures r.Success? <==> FieldsAcceptable(input, checks)
    ensures r.Success? ==>
      && Submitted(input, Email) == Some(r.value.email)
      && Submitted(input, Password) == Some(r.value.password)
      && Submitted(input, Password2) == Some(r.value.password2)
      && Submitted(input, FirstName) == Some(r.value.firstName)
      && Submitted(input, LastName) == Some(r.value.lastName)
      && r.value.role == RoleField(Get(input, "role")).value
    ensures r.Failure? ==> r.error == FieldErrors(input, checks) && r.error != map[]
  {
    if FieldsAcceptable(input, checks) then
      Success(RegisterData(
        FieldResult(input, checks, Email).value,
        FieldResult(input, checks, Password).value,
        FieldResult(input, checks, Password2).value,
        FieldResult(input, checks, FirstName).value,
        FieldResult(input, checks, LastName).value,
        FieldResult(input, checks, Role).value))
    else
      var e := FieldErrors(input, checks);
      assert Email in e || Password in e || Password2 in e || FirstName in e || LastName in e || Role in e;
      Failure(e)
  }

  /** `RegisterSerializer.validate`: the two passwords must agree. */
  function Validate(attrs: RegisterData): (r: Result<RegisterData, ErrorDict>)
    ensures r.Failure? <==> attrs.password != attrs.password2
    ensures r.Failure? ==> r.error == map[Password := [Rejected(PasswordMismatchMessage)]]
    ensures r.Success? ==> r.value == attrs
  {
    if attrs.password != attrs.password2 then
      Failure(map[Password := [Rejected(PasswordMismatchMessage)]])
    else Success(attrs)
  }

  /** `is_valid()`: the field stage, then `validate` when every field passed. */
  function RunValidation(input: RequestData, checks: LibraryChecks): (r: Result<RegisterData, ErrorDict>)
    ensures r.Success? <==>
      FieldsAcceptable(input, checks) && Submitted(input, Password) == Submitted(input, Password2)
    ensures r.Success? ==>
      && Submitted(input, Email) == Some(r.value.email)
      && Submitted(input, Password) == Submitted(input, Password2) == Some(r.value.password)
      && r.value.password2 == r.value.password
      && |r.value.password| >= PasswordMinLength
      && Submitted(input, FirstName) == Some(r.value.firstName) && 0 < |r.value.firstName| <= NameMaxLength
      && Submitted(input, LastName) == Some(r.value.lastName) && 0 < |r.value.lastName| <= NameMaxLength
      && r.value.role in RoleChoices
      && ("role" !in input ==> r.value.role == DefaultRole)
    ensures !FieldsAcceptable(input, checks) ==>
      && r == Failure(FieldErrors(input, checks))
      && forall f :: f in r.error <==> !Acceptable(input, checks, f)
    ensures FieldsAcceptable(input, checks) && Submitted(input, Password) != Submitted(input, Password2) ==>
      r == Failure(map[Password := [Rejected(PasswordMismatchMessage)]])
  {
    match ToInternalValue(input, checks)
    case Failure(errors) => Failure(errors)
    case Success(attrs) => Validate(attrs)
  }

  /** A password shorter than eight characters, after stripping, is refused on `password`. */
  lemma ShortPasswordRejected(input: RequestData, checks: LibraryChecks)
    requires "password" in input && 0 < |Strip(input["password"])| < PasswordMinLength
    ensures var r := RunValidation(input, checks);
      r.Failure? && Password in r.error && TooShort(PasswordMinLength) in r.error[Password]
  {
    assert !Acceptable(input, checks, Password);
  }

  /** A missing required field is reported as required; a missing role is not an error. */
  lemma MissingFieldRequired(input: RequestData, checks: LibraryChecks, f: Field)
    requires f.Key() !in input
    ensures var r := RunValidation(input, checks);
      f != Role ==> r.Failure? && f in r.error && r.error[f] == [Required]
    ensures f == Role ==> Role !in FieldErrors(input, checks)
  {
    var e := FieldErrors(input, checks);
    if f != Role {
      assert FieldResult(input, checks, f) == Failure([Required]);
      assert f in e && e[f] == [Required];
    } else {
      assert Acceptable(input, checks, Role);
    }
  }

  /** The arguments `create` passes to `User.objects.create_user`. */
  datatype CreateUserCall = CreateUserCall(
    email: string,
    password: string,
    firstName: string,
    lastName: string,
    role: string)

  /** `RegisterSerializer.create`: forwards five fields; `role` falls back to the default. */
  function Create(data: RegisterData): (c: CreateUserCall)
    ensures c.email == data.email && c.password == data.password
    ensures c.firstName == data.firstName && c.lastName == data.lastName
    ensures c.role == data.role
  {
    CreateUserCall(data.email, data.password, data.firstName, data.lastName, data.role)
  }

  /** `create` does not depend on `password2`. */
  lemma CreateIgnoresPassword2(data: RegisterData, other: string)
    ensures Create(data.(password2 := other)) == Create(data)
  {
  }

  /** A user created from accepted input has an allowed role and a long enough password. */
  lemma CreatedUserWellFormed(input: RequestData, checks: LibraryChecks)
    ensures var r := RunValidation(input, checks);
      r.Success? ==>
        var c := Create(r.value);
        c.role in RoleChoices && |c.password| >= PasswordMinLength
        && ("role" !in input ==> c.role == DefaultRole)
  {
  }

  // ---------------------------------------------------------------- login response

  /** The authenticated user's stored details. */
  datatype AccountUser = AccountUser(email: string, role: string, firstName: string, lastName: string)

  const AddedClaims: set<string> := {"email", "role", "first_name", "last_name"}

  /**
   * `MyTokenObtainPairSerializer.validate`: the parent's token data (or its
   * authentication failure, as the failure's detail text) plus four of the
   * user's fields.
   */
  function TokenResponse(parent: Result<map<string, string>, string>, user: AccountUser)
    : (r: Result<map<string, string>, string>)
    ensures parent.Failure? ==> r == parent
    ensures parent.Success? ==> r.Success?
    ensures parent.Success? ==>
      && r.value.Keys == parent.value.Keys + AddedClaims
      && r.value["email"] == user.email
      && r.value["role"] == user.role
      && r.value["first_name"] == user.firstName
      && r.value["last_name"] == user.lastName
      && (forall k :: k in parent.value && k !in AddedClaims ==> r.value[k] == parent.value[k])
  {
    match parent
    case Failure(detail) => Failure(detail)
    case Success(data) =>
      Success(data["email" := user.email]["role" := user.role]
                  ["first_name" := user.firstName]["last_name" := user.lastName])
  }

  /** The response carries `username` only if the parent's token data already did. */
  lemma NoUsernameAdded(parent: map<string, string>, user: AccountUser)
    ensures "username" in TokenResponse(Success(parent), user).value <==> "username" in parent
  {
  }
}

=== FILE: signup.dfy ===
/**
 * The sign-up page's submit handler (`front_end/src/pages/Signup.tsx`).
 *
 * `Begin` is the pre-flight gate: the terms check, then the password check,
 * then the switch to busy and the request payload. `Finish` is what happens
 * once the registration request settles. Sign-up never touches storage.
 */
module Signup {
  import opened Wrappers
  import opened Storage
  import opened Http

  const TermsMessage := "You must agree to the terms and conditions."
  const MismatchMessage := "Passwords do not match."
  const SignupFailedMessage := "Failed to sign up. Please try again."
  const StudentRole := "student"

  /** The page's state: its inputs, the busy flag and the displayed error. */
  datatype SignupForm = SignupForm(
    firstName: string,
    lastName: string,
    email: string,
    password: string,
    confirmPassword: string,
    agreeTerms: bool,
    loading: bool,
    error: string)

  /** The JSON body posted to `/auth/register/`. */
  datatype RegisterPayload = RegisterPayload(
    firstName: string,
    lastName: string,
    email: string,
    password: string,
    password2: string,
    role: string)

  /** An error response body: field name to its list of messages. */
  type ErrorBody = map<string, seq<string>>

  /** The fields whose errors are shown, highest priority first, with their labels. */
  const ErrorFields: seq<(string, string)> :=
    [("email", "Email"), ("password", "Password"), ("first_name", "First Name"), ("last_name", "Last Name")]

  /** The submit button is enabled only when idle and the terms box is ticked. */
  predicate SubmitEnabled(f: SignupForm) {
    !f.loading && f.agreeTerms
  }

  /** `list[0]` inside a template literal: an empty list gives "undefined". */
  function FirstMessage(msgs: seq<string>): string {
    if |msgs| > 0 then msgs[0] else "undefined"
  }

  /** The pre-flight gate's verdict. */
  datatype Gate = Blocked(form: SignupForm) | Sending(form: SignupForm, payload: RegisterPayload)

  function Payload(f: SignupForm): (p: RegisterPayload)
    ensures p.role == StudentRole && p.password2 == f.confirmPassword
    ensures p.firstName == f.firstName && p.lastName == f.lastName
    ensures p.email == f.email && p.password == f.password
  {
    RegisterPayload(f.firstName, f.lastName, f.email, f.password, f.confirmPassword, StudentRole)
  }

  /** The payload as the JSON object the back end receives. */
  function RequestBody(p: RegisterPayload): (body: map<string, string>)
    ensures "first_name" in body && "last_name" in body && "email" in body
    ensures "password" in body && "password2" in body && "role" in body
    ensures body["first_name"] == p.firstName && body["last_name"] == p.lastName
    ensures body["email"] == p.email && body["password"] == p.password
    ensures body["password2"] == p.password2 && body["role"] == p.role
  {
    map["first_name" := p.firstName, "last_name" := p.lastName, "email" := p.email,
        "password" := p.password, "password2" := p.password2, "role" := p.role]
  }

  /** Before any request: the terms check, the password check, then busy. */
  function Begin(f: SignupForm): (g: Gate)
    ensures g.Sending? <==> f.agreeTerms && f.password == f.confirmPassword
    ensures !f.agreeTerms ==> g == Blocked(f.(error := TermsMessage))
    ensures f.agreeTerms && f.password != f.confirmPassword ==> g == Blocked(f.(error := MismatchMessage))
    ensures g.Sending? ==> g.form == f.(loading := true, error := "") && !SubmitEnabled(g.form)
    ensures g.Sending? ==> g.payload == Payload(f)
  {
    if !f.agreeTerms then Blocked(f.(error := TermsMessage))
    else if f.password != f.confirmPassword then Blocked(f.(error := MismatchMessage))
    else Sending(f.(loading := true, error := ""), Payload(f))
  }

  /** The `catch` block's error mapping, branch by branch as the page writes it. */
  function ErrorMessage(data: Option<ErrorBody>): (msg: string)
    ensures msg == SignupFailedMessage <==>
      data.None? || forall i :: 0 <= i < |ErrorFields| ==> ErrorFields[i].0 !in data.value
  {
    match data
    case None => SignupFailedMessage
    case Some(body) =>
      assert ErrorFields[0].0 == "email" && ErrorFields[1].0 == "password";
      assert ErrorFields[2].0 == "first_name" && ErrorFields[3].0 == "last_name";
      if "email" in body then Labelled("Email: ", FirstMessage(body["email"]))
      else if "password" in body then Labelled("Password: ", FirstMessage(body["password"]))
      else if "first_name" in body then Labelled("First Name: ", FirstMessage(body["first_name"]))
      else if "last_name" in body then Labelled("Last Name: ", FirstMessage(body["last_name"]))
      else
        assert forall i :: 0 <= i < |ErrorFields| ==> ErrorFields[i].0 !in body by {
          forall i | 0 <= i < |ErrorFields| ensures ErrorFields[i].0 !in body {
            assert ErrorFields[i].0 in ["email", "password", "first_name", "last_name"];
          }
        }
        SignupFailedMessage
  }

  /** A field's message, `"<Label>: <message>"`; never the generic message. */
  function Labelled(prefix: string, m: string): (msg: string)
    requires prefix in ["Email: ", "Password: ", "First Name: ", "Last Name: "]
    ensures msg != SignupFailedMessage
  {
    var msg := prefix + m;
    assert msg[0] != SignupFailedMessage[0] || msg[1] != SignupFailedMessage[1];
    msg
  }

  /**
   * The mapping read as a priority table: the first listed field present in
   * the body decides the message, every later field is ignored.
   */
  function FirstReported(body: ErrorBody, fields: seq<(string, string)>): (r: Option<string>)
    ensures r.None? <==> forall i :: 0 <= i < |fields| ==> fields[i].0 !in body
    ensures r.Some? ==> exists i :: 0 <= i < |fields| && ReportedAt(body, fields, i)
                                    && r.value == fields[i].1 + ": " + FirstMessage(body[fields[i].0])
  {
    if fields == [] then None
    else if fields[0].0 in body then
      assert ReportedAt(body, fields, 0);
      Some(fields[0].1 + ": " + FirstMessage(body[fields[0].0]))
    else
      var r := FirstReported(body, fields[1..]);
      if r.Some? then
        var j :| 0 <= j < |fields[1..]| && ReportedAt(body, fields[1..], j)
                 && r.value == fields[1..][j].1 + ": " + FirstMessage(body[fields[1..][j].0]);
        assert ReportedAt(body, fields, j + 1);
        r
      else r
  }

  /** Field `i` is present and no field listed before it is. */
  predicate ReportedAt(body: ErrorBody, fields: seq<(string, string)>, i: int)
    requires 0 <= i < |fields|
  {
    fields[i].0 in body && forall j :: 0 <= j < i ==> fields[j].0 !in body
  }

  /** The page's branch chain agrees with the priority table on every body. */
  lemma ErrorMessageIsPriorityTable(data: Option<ErrorBody>)
    ensures data.Some? ==> ErrorMessage(data) == FirstReported(data.value, ErrorFields).GetOr(SignupFailedMessage)
    ensures data.None? ==> ErrorMessage(data) == SignupFailedMessage
  {
    if data.Some? {
      var body := data.value;
      var t1, t2, t3 := ErrorFields[1..], ErrorFields[2..], ErrorFields[3..];
      assert t1 == [("password", "Password"), ("first_name", "First Name"), ("last_name", "Last Name")];
      assert t2 == t1[1..] == [("first_name", "First Name"), ("last_name", "Last Name")];
      assert t3 == t2[1..] == [("last_name", "Last Name")];
      assert t3[1..] == [];
      assert "Email" + ": " == "Email: " && "Password" + ": " == "Password: ";
      assert "First Name" + ": " == "First Name: " && "Last Name" + ": " == "Last Name: ";
      if "email" in body {
      } else if "password" in body {
        assert FirstReported(body, ErrorFields) == FirstReported(body, t1);
      } else if "first_name" in body {
        assert FirstReported(body, ErrorFields) == FirstReported(body, t2);
      } else {
        assert FirstReported(body, ErrorFields) == FirstReported(body, t3);
      }
    }
  }

  /** A body naming any of the four labelled fields yields a labelled message. */
  lemma LabelledWhenFieldPresent(body: ErrorBody)
    requires "email" in body || "password" in body || "first_name" in body || "last_name" in body
    ensures ErrorMessage(Some(body)) != SignupFailedMessage
  {
  }

  /** With `email` present, the other fields of the body do not change the message. */
  lemma EmailErrorWins(b1: ErrorBody, b2: ErrorBody)
    requires "email" in b1 && "email" in b2 && b1["email"] == b2["email"]
    ensures ErrorMessage(Some(b1)) == ErrorMessage(Some(b2)) == "Email: " + FirstMessage(b1["email"])
  {
  }

  /** After the request settles: go to the login page, or show the mapped error. */
  function Finish<S>(f: SignupForm, outcome: Outcome<S, ErrorBody>): (r: (SignupForm, Option<string>))
    ensures !r.0.loading
    ensures outcome.Ok? ==> r.1 == Some(LoginRoute) && r.0.error == f.error
    ensures !outcome.Ok? ==> r.1 == None && r.0.error == ErrorMessage(ErrorData(outcome))
    ensures r.0.(error := f.error, loading := f.loading) == f
  {
    match outcome
    case Ok(_) => (f.(loading := false), Some(LoginRoute))
    case _ => (f.(loading := false, error := ErrorMessage(ErrorData(outcome))), None)
  }

  /** One whole submission: the request sent, if any, and the state afterwards. */
  datatype SignupStep = SignupStep(form: SignupForm, request: Option<RegisterPayload>, store: Store, nav: Option<string>)

  function Submit<S>(f: SignupForm, store: Store, outcome: Outcome<S, ErrorBody>): (r: SignupStep)
    ensures r.store == store
    ensures r.request.Some? <==> f.agreeTerms && f.password == f.confirmPassword
    ensures r.request.Some? ==> r.request.value == Payload(f) && !r.form.loading
    ensures r.request.None? ==> r.form.loading == f.loading && r.nav == None
    ensures !f.agreeTerms ==> r.form.error == TermsMessage
    ensures f.agreeTerms && f.password != f.confirmPassword ==> r.form.error == MismatchMessage
    ensures r.nav.Some? <==> r.request.Some? && outcome.Ok?
    ensures r.nav.Some? ==> r.nav.value == LoginRoute && r.form.error == ""
  {
    match Begin(f)
    case Blocked(g) => SignupStep(g, None, store, None)
    case Sending(g, payload) =>
      var (h, nav) := Finish(g, outcome);
      SignupStep(h, Some(payload), store, nav)
  }

  /** The terms check comes first: without agreement the passwords are never compared. */
  lemma TermsCheckedFirst<S>(f: SignupForm, confirm: string, store: Store, outcome: Outcome<S, ErrorBody>)
    requires !f.agreeTerms
    ensures Submit(f.(confirmPassword := confirm), store, outcome) == Submit(f, store, outcome).(form := f.(confirmPassword := confirm, error := TermsMessage))
  {
  }

  /** Once a submission settles, the button is enabled again exactly when the terms box is ticked. */
  lemma EnabledAfterSubmit<S>(f: SignupForm, store: Store, outcome: Outcome<S, ErrorBody>)
    requires !f.loading
    ensures SubmitEnabled(Submit(f, store, outcome).form) <==> f.agreeTerms
  {
  }
}

=== FILE: storage.dfy ===
/**
 * The browser's `localStorage` area as the front end uses it: a string-keyed
 * map of strings. A key that is absent is what `getItem` reports as `null`.
 */
module Storage {
  import opened Wrappers

  type Store = map<string, string>

  /** The key the login page writes the access token under. */
  const TokenKey := "token"

  /** The key the login page writes the serialised user record under, and the profile page reads. */
  const UserKey := "user"

  /** `localStorage.getItem(key)`. */
  function GetItem(store: Store, key: string): (r: Option<string>)
    ensures r.Some? <==> key in store
    ensures r.Some? ==> r.value == store[key]
  {
    Get(store, key)
  }

  /** `localStorage.setItem(key, value)`: overwrites `key`, every other key keeps its value. */
  function SetItem(store: Store, key: string, value: string): (r: Store)
    ensures r.Keys == store.Keys + {key}
    ensures GetItem(r, key) == Some(value)
    ensures forall k :: k in store && k != key ==> r[k] == store[k]
  {
    store[key := value]
  }

  /** `localStorage.removeItem(key)`: a missing key is not an error. */
  function RemoveItem(store: Store, key: string): (r: Store)
    ensures r.Keys == store.Keys - {key}
    ensures GetItem(r, key) == None
    ensures forall k :: k in r ==> r[k] == store[k]
  {
    store - {key}
  }

  /** Removing a key twice leaves the store as removing it once. */
  lemma RemoveItemIdempotent(store: Store, key: string)
    ensures RemoveItem(RemoveItem(store, key), key) == RemoveItem(store, key)
  {
  }
}

=== FILE: wrappers.dfy ===
/** Failure-aware value types shared by every module of the model. */
module Wrappers {

  /** A value that may be missing: JavaScript's `undefined`/`null`, or a lookup that found nothing. */
  datatype Option<+T> = None | Some(value: T) {

    /** The carried value, or `default` when there is none. */
    function GetOr(default: T): T {
      match this
      case Some(v) => v
      case None => default
    }
  }

  /** Looks `k` up in `m`: a JavaScript property read, or a Python `dict.get`. */
  function Get<K, V>(m: map<K, V>, k: K): (r: Option<V>)
    ensures r.Some? <==> k in m
    ensures r.Some? ==> r.value == m[k]
  {
    if k in m then Some(m[k]) else None
  }

  /** The outcome of a validation step: a value, or the errors that stopped it. */
  datatype Result<+R, +E> = Success(value: R) | Failure(error: E)
}
